=== FILE: README.md ===
# spectra-cluster-2 core in Dafny

This project models two classes of spectra-cluster-2, a greedy clustering
tool for tandem mass spectra:

- **`GreedySpectralCluster`** is the cluster entity. It holds:
  - the set of member spectrum ids;
  - a consensus-spectrum builder;
  - a best-match list, which keeps the 30 highest comparison scores against
    other clusters in ascending order, plus the lowest score and a lazily
    rebuilt set of the ids in the list.

  The model covers adding spectra (including the duplicate filter), merging
  clusters, saving a comparison result, re-sorting and truncating the list,
  and the id lookup.
- **`CombinedFisherIntensityTest`** is the similarity score. It has three
  parts:
  - a two-pointer walk over two peak lists sorted by m/z, which pairs the
    intensities of shared bins;
  - a hypergeometric test on the number of shared peaks, over the bin range
    the two spectra span;
  - a Kendall's tau test on the paired intensities.

  The two probabilities are combined with Fisher's method.

Every Java mutator that returns normally becomes a pure function from the
cluster before the call to the cluster after it. An operation that throws
returns a `Failure` that names the exception, so no `requires` rules that
input out. A `Failure` carries no cluster: the partly updated object Java
leaves behind when it throws midway is not modelled (see "Left out"). `Valid` is the
object invariant, and every operation preserves it.

Java `double` values are modelled as a `Doubles.Double`. It is an exact real
number, or one of positive infinity, negative infinity and NaN, and the model
follows the IEEE rules for those special values. The library numerics are
fields of a `Numerics` parameter:
- the logarithm and square root on ordinary arguments;
- the hypergeometric mass, Kendall's tau, the normal distribution function
  and the chi-squared density.

Modules:

- `Wrappers`: `Option` and `Result`.
- `Spectra`: binary peaks and spectra, and Java `int` wrap-around.
- `Consensus`: the consensus builder, kept as a log of the contributions made
  to it.
- `ComparisonMatches`: the best-match list. It covers the stable sort the
  source gets from `Collections.sort`, truncation to the highest 30, and
  their top-K and commutation properties.
- `GreedySpectralCluster`: the cluster operations.
- `ClusterScenarios`: the save scenario of the cluster's unit test, proved
  for every builder.
- `Doubles`: IEEE special values, `Math.log` and `Math.sqrt`.
- `SharedPeaks`: the shared-peak walk, its reference definition (the common
  bins), and the population range.
- `CombinedFisherIntensity`: the fallbacks of the score, Fisher's combination
  and `correlation`.

## Model

In the table, `G` stands for `src/main/java/org/spectra/cluster/model/cluster/GreedySpectralCluster.java`
and `F` for `src/main/java/org/spectra/cluster/similarity/CombinedFisherIntensityTest.java`.
The cells themselves carry the full paths.

| member | source | states |
|---|---|---|
| GreedySpectralCluster.NewCluster | src/main/java/org/spectra/cluster/model/cluster/GreedySpectralCluster.java:40-43 | A new cluster satisfies the invariant. It takes its id from the builder's UUI, owns that builder, and has no members and no matches. |
| GreedySpectralCluster.PrecursorMz | src/main/java/org/spectra/cluster/model/cluster/GreedySpectralCluster.java:69-76 | The result is -1 exactly when the cluster has no members or the builder reports -1. With members, it is the builder's precursor m/z. |
| GreedySpectralCluster.PrecursorCharge | src/main/java/org/spectra/cluster/model/cluster/GreedySpectralCluster.java:78-85 | The same as `PrecursorMz`, for the charge. |
| GreedySpectralCluster.NewClusterHasNoPrecursor | src/main/java/org/spectra/cluster/model/cluster/GreedySpectralCluster.java:70-84 | A freshly constructed cluster reports -1 for both m/z and charge, whatever its builder holds. |
| GreedySpectralCluster.NonMembers | src/main/java/org/spectra/cluster/model/cluster/GreedySpectralCluster.java:119-126 | The filtered array holds exactly the input spectra whose ids are not members, each as often as it occurs in the input, and is no longer than the input. When no input id is a member it is the input itself. |
| GreedySpectralCluster.DuplicateCount | src/main/java/org/spectra/cluster/model/cluster/GreedySpectralCluster.java:109-124 | Distinct duplicate ids plus non-member entries never exceed the input length. They equal it exactly when no member id occurs twice in the input. |
| GreedySpectralCluster.AddSpectra | src/main/java/org/spectra/cluster/model/cluster/GreedySpectralCluster.java:98-137 | A null argument changes nothing. An input fails with a null-pointer exception exactly when some member id occurs twice in it: the filtered array is then sized too large and keeps a null slot. If every input id is already a member, nothing changes. Otherwise the members become the old ones plus every input id, and only the non-members' spectra reach the builder. |
| GreedySpectralCluster.UpdateComparisonMatches | src/main/java/org/spectra/cluster/model/cluster/GreedySpectralCluster.java:197-209 | The call fails (the `get(0)`) exactly when the pending list is empty. Otherwise the result is valid and sorted, and holds min(n, 30) entries taken from the pending list. No dropped entry scores above a kept one. The cached id set is discarded. |
| GreedySpectralCluster.SaveComparisonResult | src/main/java/org/spectra/cluster/model/cluster/GreedySpectralCluster.java:184-191 | When the list is full, a score below the lowest leaves the cluster unchanged. Otherwise the new match is kept, and the list gains it and loses at most its old lowest entry (only when it was full). The invariant holds, and id, members and builder do not change. |
| GreedySpectralCluster.SaveIsInsertThenTruncate | src/main/java/org/spectra/cluster/model/cluster/GreedySpectralCluster.java:185-202 | Whether or not the early return is taken, a save leaves the highest 30 of the list with the new match stably inserted. The early return is only an optimisation. |
| GreedySpectralCluster.SaveAll | src/main/java/org/spectra/cluster/model/cluster/GreedySpectralCluster.java:184-191 | Any sequence of saves keeps the invariant and leaves id, members and builder unchanged. |
| GreedySpectralCluster.SaveAllRetainsHighestSeen | src/main/java/org/spectra/cluster/model/cluster/GreedySpectralCluster.java:184-209 | After any sequence of saves, the list is exactly the highest 30 of a stable sort of the initial list followed by every offered match. |
| GreedySpectralCluster.WithoutSelfReferences | src/main/java/org/spectra/cluster/model/cluster/GreedySpectralCluster.java:168-173 | The imported matches are exactly the other cluster's matches that do not refer to the surviving id, each as often as it occurs there. They are empty exactly when every match refers to that id. |
| GreedySpectralCluster.MergeCluster | src/main/java/org/spectra/cluster/model/cluster/GreedySpectralCluster.java:145-176 | The merge fails exactly when the other cluster has matches, this list is empty, and every imported match refers to the surviving id. The id becomes the other's when that cluster has strictly more members. The members become the union, and the builder records the other builder's consensus. When the other cluster has no matches, the list, lowest score and cache are untouched. When it has any, the cache is discarded even if none was imported. |
| GreedySpectralCluster.MergeRetainsHighestOffered | src/main/java/org/spectra/cluster/model/cluster/GreedySpectralCluster.java:166-175 | Every retained match comes from this list or is a non-self-referencing match of the other cluster. The retained matches are a sub-multiset of everything offered, no dropped entry scores above a kept one, and the list is exactly the highest 30 of a stable sort of this list followed by the imported matches. |
| GreedySpectralCluster.MergeDisjointMemberCount | src/main/java/org/spectra/cluster/model/cluster/GreedySpectralCluster.java:163-164 | Merging clusters with disjoint members adds their member counts. |
| GreedySpectralCluster.IsKnownComparisonMatch | src/main/java/org/spectra/cluster/model/cluster/GreedySpectralCluster.java:233-239 | The answer is true exactly when some match in the list has the given id, even when a cached set was present. Afterwards a cache is present, and nothing else changes. |
| ComparisonMatches.StableSort | src/main/java/org/spectra/cluster/model/cluster/GreedySpectralCluster.java:198 | The sort result is ascending by similarity and is a permutation of its input. It is stable: for every similarity value, the entries with that value keep their input order. |
| ComparisonMatches.InsertIsStable | src/main/java/org/spectra/cluster/model/cluster/GreedySpectralCluster.java:198 | A stable insertion places the new entry after every entry of equal similarity: the entries of any one similarity are the old ones in order, followed by the new entry if it has that similarity. |
| ComparisonMatches.InsertKeepsSorted | src/main/java/org/spectra/cluster/model/cluster/GreedySpectralCluster.java:198 | A stable insertion into a sorted list keeps it sorted and adds exactly the new entry. |
| ComparisonMatches.SortingSortedIsIdentity | src/main/java/org/spectra/cluster/model/cluster/GreedySpectralCluster.java:198 | Because the sort is stable, sorting a sorted list leaves it unchanged. |
| ComparisonMatches.KeepHighest | src/main/java/org/spectra/cluster/model/cluster/GreedySpectralCluster.java:200-203 | Truncation keeps min(n, 30) entries. It keeps a sorted list sorted, and the kept entries are a suffix of the list. |
| ComparisonMatches.TopOfSortIsHighest | src/main/java/org/spectra/cluster/model/cluster/GreedySpectralCluster.java:198-203 | Sorting then truncating keeps min(n, 30) entries of the input, and no dropped entry scores above a kept one. |
| ComparisonMatches.KeepInsertCommutes | src/main/java/org/spectra/cluster/model/cluster/GreedySpectralCluster.java:189-203 | Truncating a sorted list before a stable insertion and again after it keeps the same entries as truncating only after it. |
| ClusterScenarios.SavingOffersKeepsTheLast | src/test/java/org/spectra/cluster/model/cluster/GreedySpectralClusterTest.java:26-33 | Saving ids "1" to "n" with scores 1 to n into a new cluster leaves the last min(n, 30) of them. |
| ClusterScenarios.SavingOneToFortyKeepsTheThirtyHighest | src/test/java/org/spectra/cluster/model/cluster/GreedySpectralClusterTest.java:18-38 | After saves "1" and "2" the list holds 2 matches. After saves "1" to "40" it holds exactly 30: "30" is a known match and "10" is not. |
| Spectra.WrapInt32 | src/main/java/org/spectra/cluster/similarity/CombinedFisherIntensityTest.java:58 | Java `int` subtraction: the result is in the int range, congruent to the exact value modulo 2^32, and equal to it when in range. |
| SharedPeaks.CommonMz | src/main/java/org/spectra/cluster/similarity/CombinedFisherIntensityTest.java:32-52 | The reference for the walk: a bin is listed exactly when both peak lists have a peak in it. There are no more entries than peaks. |
| SharedPeaks.CommonMzSymmetric | src/main/java/org/spectra/cluster/similarity/CombinedFisherIntensityTest.java:33-52 | On strictly ascending lists, swapping the spectra gives the same shared bins, and their count is bounded by both peak counts. |
| SharedPeaks.MatchBin | src/main/java/org/spectra/cluster/similarity/CombinedFisherIntensityTest.java:36-51 | The inner loop skips only peaks below the bin. Without a match it stops at the first peak above the bin (or at the end). With a match it consumes exactly that peak and returns its intensity. |
| SharedPeaks.SharedPeakWalk | src/main/java/org/spectra/cluster/similarity/CombinedFisherIntensityTest.java:33-52 | The two intensity lists are equally long, and no longer than either peak list. On strictly ascending input they are the intensities of exactly the common bins, in ascending order. |
| SharedPeaks.MinBin | src/main/java/org/spectra/cluster/similarity/CombinedFisherIntensityTest.java:55 | `minBin` is the first m/z of one of the two spectra, and no higher than either first m/z. |
| SharedPeaks.MaxBin | src/main/java/org/spectra/cluster/similarity/CombinedFisherIntensityTest.java:56 | `maxBin` is the last m/z of one of the two spectra, and no lower than either last m/z. |
| SharedPeaks.PopulationSize | src/main/java/org/spectra/cluster/similarity/CombinedFisherIntensityTest.java:55-58 | The population `maxBin - minBin` in Java `int` arithmetic: the exact difference when it fits in an `int`, and congruent to it modulo 2^32 always. |
| SharedPeaks.PopulationSpansAllPeaks | src/main/java/org/spectra/cluster/similarity/CombinedFisherIntensityTest.java:55-58 | On input sorted by m/z (non-decreasing, as a sort by m/z leaves it), `minBin` and `maxBin` bound every peak of both spectra. With no negative bin, the population `maxBin - minBin` is their exact, non-negative difference. |
| CombinedFisherIntensity.HypergeometricFallback | src/main/java/org/spectra/cluster/similarity/CombinedFisherIntensityTest.java:58-62 | A hypergeometric probability of 0 becomes 1 and anything else is kept, so the result is never 0 and its logarithm is never negative infinity. A probability stays a positive probability. |
| CombinedFisherIntensity.KendallVariance | src/main/java/org/spectra/cluster/similarity/CombinedFisherIntensityTest.java:120 | The variance 2(2k + 5) / (9k(k - 1)) lies in (0, 1] for k >= 2. |
| CombinedFisherIntensity.KendallVarianceDouble | src/main/java/org/spectra/cluster/similarity/CombinedFisherIntensityTest.java:114-120 | The same quotient as a double: negative infinity for no pairs (ten over the negative zero), and a finite positive value from two pairs on. |
| CombinedFisherIntensity.AssessKendallCorrelation | src/main/java/org/spectra/cluster/similarity/CombinedFisherIntensityTest.java:102-127 | A NaN tau or a single shared peak gives 1. From two pairs on, tau is taken against a normal distribution whose standard deviation is the finite root of the positive variance. For no pairs that deviation is NaN. |
| CombinedFisherIntensity.KendallIsProbability | src/main/java/org/spectra/cluster/similarity/CombinedFisherIntensityTest.java:108-126 | When the normal distribution function returns probabilities for a finite positive standard deviation, the Kendall assessment is a probability in [0, 1]. The one exception is no pairs with a defined tau, where the deviation is NaN. |
| CombinedFisherIntensity.FisherStatistic | src/main/java/org/spectra/cluster/similarity/CombinedFisherIntensityTest.java:82 | The statistic -2 (ln p1 + ln p2) is finite for two positive probabilities and positive infinity when one of two non-negative numbers is 0. For two probabilities it is never NaN or negative infinity, and a NaN input gives NaN. |
| CombinedFisherIntensity.CombineProbabilities | src/main/java/org/spectra/cluster/similarity/CombinedFisherIntensityTest.java:80-94 | A Fisher statistic of 0 scores 0. An infinite statistic scores positive infinity, because its probability is taken as 0. Any other statistic scores the negative log of the chi-squared density at it. |
| CombinedFisherIntensity.ZeroProbabilityScoresInfinite | src/main/java/org/spectra/cluster/similarity/CombinedFisherIntensityTest.java:82-93 | A probability of 0 on either side, with any finite non-negative other side, makes the score positive infinity. |
| CombinedFisherIntensity.CertainProbabilitiesScoreZero | src/main/java/org/spectra/cluster/similarity/CombinedFisherIntensityTest.java:82-86 | Two probabilities of 1 combine to the score 0. |
| CombinedFisherIntensity.CombineIsSymmetric | src/main/java/org/spectra/cluster/similarity/CombinedFisherIntensityTest.java:82 | Fisher's combination does not depend on the order of the two probabilities. |
| CombinedFisherIntensity.CombinedProbabilitiesAreNumbers | src/main/java/org/spectra/cluster/similarity/CombinedFisherIntensityTest.java:80-94 | Two probabilities in [0, 1] never combine to NaN when the chi-squared density is finite and non-negative at every finite statistic. |
| CombinedFisherIntensity.Correlation | src/main/java/org/spectra/cluster/similarity/CombinedFisherIntensityTest.java:23-72 | The call fails (an index out of bounds) exactly when either spectrum has no peaks. On strictly ascending peak lists it equals the score defined over the common bins. It is never NaN when three things hold: the libraries stay in range (an idealised hypergeometric mass that is a probability at every valid argument), the population `maxBin - minBin` is at least each peak count, and tau of no pairs is NaN. |
| CombinedFisherIntensity.ScoreIsSymmetric | src/main/java/org/spectra/cluster/similarity/CombinedFisherIntensityTest.java:23-72 | On strictly ascending peak lists, the score does not depend on which spectrum comes first. This assumes the hypergeometric mass is symmetric in the two sample sizes and tau in its arguments. |

## Left out

- Serialization (`toBytes`, `fromBytes`) is left out: it is Java object I/O.
- The read-only getters (`getId`, `getClusteredSpectraIds`, `getClusteredSpectraCount`, `getComparisonMatches`, `getConsensusSpectrum`, `getConsensusSpectrumBuilder`) are left out. They are the `Cluster` fields themselves.
- `setComparisonMatches` is left out. It is deprecated and the source marks it for removal.
- The duplicate warning logged by `mergeCluster` is left out. It is a log line with no effect on state.
- The consensus builder's peak aggregation is left out. It is not part of this model: the builder is a log of the spectra and consensus builders handed to it.
- For the same reason, its precursor m/z and charge are parameters of `PrecursorMz` and `PrecursorCharge`.
- `ComparisonMatch`'s comparator is not part of this model. The list is taken to be ordered by ascending similarity.
- `float` similarities are exact reals here. Float rounding and NaN scores are not modelled.
- The hypergeometric mass, Kendall's tau, the normal distribution function, the chi-squared density, and `ln` and `sqrt` on ordinary arguments are parameters (`Numerics`). They are foreign library numerics, and only their special values and the arithmetic around them are modelled.
- Finite `double` arithmetic in the score is exact: rounding, overflow to infinity and signed zero are not modelled. The one signed zero that matters, the variance for no pairs, is written out in `KendallVarianceDouble`.
- `MergeCluster` takes the other cluster as a `Cluster` value. A cluster merged into itself would alias its own mutable state in Java, and the model does not express that aliasing.
- GreedySpectralCluster.AddSpectra: a `Failure` does not carry the state Java leaves behind. When the null slot throws (GreedySpectralCluster.java lines 134-135), the builder has already been handed the filtered array, null slot included (line 132).
- GreedySpectralCluster.AddSpectra: a null element in the input array is not modelled, because the model's spectra are values and never null. In Java that element throws a null-pointer exception at line 109.
- GreedySpectralCluster.MergeCluster: a `Failure` does not carry the state Java leaves behind. When `get(0)` throws in `updateComparisonMatches` (line 205), the builder, id and members have already been merged (lines 156-164).
- GreedySpectralCluster.MergeCluster: a null cluster argument is not modelled, because the other cluster is a value. In Java it throws a null-pointer exception at line 147.
- CombinedFisherIntensity.Correlation: freedom from NaN is not promised when the population `maxBin - minBin` is smaller than a peak count. For example, two one-peak spectra in the same bin give a population of 0 and samples of 1. The hypergeometric library's answer there is not modelled.
- CombinedFisherIntensity.Correlation: freedom from NaN holds only for an idealised hypergeometric mass that returns a probability at every valid argument. The repository's own `testHgt` (src/test/java/org/spectra/cluster/similarity/CombinedFisherIntensityTestTest.java lines 106-113) records the real library returning NaN at valid arguments (population 1655, samples 383 and 87, 62 shared), so the promise does not carry over to that library.
- CombinedFisherIntensity.Correlation: freedom from NaN is also not promised when no peaks are shared and tau of two empty lists is a number. The normal distribution is then built with a NaN standard deviation (`AssessKendallCorrelation` states this), and its answer is not modelled.
- CombinedFisherIntensity.KendallIsProbability: the result is not promised to be a probability for no pairs with a defined tau. The standard deviation is NaN there.
- `SharedPeaks.SharedPeakWalk`: equality with the common-bin reference is proved only for strictly ascending peak lists (one peak per bin). On other input only the length bounds are stated.
- `CombinedFisherIntensity.ScoreIsSymmetric` rests on two point-wise symmetry assumptions about the library numerics, because the numerics are parameters.
- The cluster's unit test calls `isInBestComparisonResults`, which the cluster class does not declare. The scenario lemma uses `isKnownComparisonMatch` (`IsKnownComparisonMatch`) in its place.
- The rest of the repository (readers, engine, filters, normalizers, storage, tools) is not part of this model.

=== FILE: cluster_scenarios.dfy ===
/** The best-match scenario exercised against an empty cluster: saving ids "1"
    to "40" with similarities 1 to 40, one after the other. */
module ClusterScenarios {
  import opened Consensus
  import opened ComparisonMatches
  import opened GreedySpectralCluster

  function DigitChar(d: nat): char
    requires d < 10
  {
    (48 + d) as char
  }

  /** `String.valueOf` for a non-negative int. */
  function Decimal(n: nat): string
  {
    if n < 10 then [DigitChar(n)] else Decimal(n / 10) + [DigitChar(n % 10)]
  }

  /** The first `n` offers of the scenario: id "i" with similarity i, for i = 1..n. */
  function Offers(n: nat): seq<ComparisonMatch>
  {
    seq(n, i requires 0 <= i < n => ComparisonMatch(Decimal(i + 1), (i + 1) as real))
  }

  /** No number from 11 to 99 prints as "10". */
  lemma TwoDigitsAreNotTen(n: nat)
    requires 11 <= n < 100
    ensures Decimal(n) != "10"
  {
    assert Decimal(n) == [DigitChar(n / 10), DigitChar(n % 10)];
    if n / 10 == 1 {
      assert n % 10 != 0;
      assert DigitChar(n % 10) != '0';
    } else {
      assert DigitChar(n / 10) != '1';
    }
  }

  lemma ThirtyPrintsAsThirty()
    ensures Decimal(30) == "30"
  {
    assert Decimal(3) == [DigitChar(3)];
    assert Decimal(30) == Decimal(3) + [DigitChar(0)];
    assert DigitChar(3) == '3' && DigitChar(0) == '0';
  }

  lemma OffersSorted(n: nat)
    ensures Sorted(Offers(n))
  {
  }

  /** Offers already come in ascending order, so saving them from an empty
      cluster keeps the last `Capacity` of them. */
  lemma SavingOffersKeepsTheLast(builder: ConsensusBuilder, n: nat)
    ensures SaveAll(NewCluster(builder), Offers(n)).matches == KeepHighest(Offers(n))
  {
    var empty := NewCluster(builder);
    var h := Offers(n);
    OffersSorted(n);
    assert empty.matches + h == h;
    SaveAllRetainsHighestSeen(empty, h);
    SortingSortedIsIdentity(h);
  }

  /** Saving "1" and "2" keeps both; saving "1" to "40" keeps exactly thirty
      entries, among them "30" and not "10". */
  lemma SavingOneToFortyKeepsTheThirtyHighest(builder: ConsensusBuilder)
    ensures |SaveAll(NewCluster(builder), Offers(2)).matches| == 2
    ensures var c := SaveAll(NewCluster(builder), Offers(40));
      && |c.matches| == Capacity
      && IsKnownComparisonMatch(c, "30").0
      && !IsKnownComparisonMatch(c, "10").0
  {
    SavingOffersKeepsTheLast(builder, 2);
    SavingOffersKeepsTheLast(builder, 40);
    var h := Offers(40);
    var kept := SaveAll(NewCluster(builder), h).matches;
    assert kept == h[10..];
    assert kept[19] == ComparisonMatch(Decimal(30), 30.0);
    ThirtyPrintsAsThirty();
    forall i | 0 <= i < |kept|
      ensures kept[i].spectrumId != "10"
    {
      assert kept[i] == h[i + 10];
      TwoDigitsAreNotTen(i + 11);
    }
  }
}

=== FILE: comparison_matches.dfy ===
/** The bounded best-match list of a cluster: comparison matches kept in ascending
    order of similarity, of which only the `Capacity` highest are retained. Java's
    `Collections.sort` is stable, so the sort here is an insertion sort that puts
    a new entry after every entry of equal similarity. */
module ComparisonMatches {

  /** How many comparison matches a cluster retains. */
  const Capacity: nat := 30

  /** The result of one comparison: the id of the compared entity and the score. */
  datatype ComparisonMatch = ComparisonMatch(spectrumId: string, similarity: real)

  /** Ascending by similarity, the order matches are compared in. */
  predicate Sorted(s: seq<ComparisonMatch>)
  {
    forall i, j :: 0 <= i < j < |s| ==> s[i].similarity <= s[j].similarity
  }

  /** The ids the list refers to. */
  function MatchIds(s: seq<ComparisonMatch>): set<string>
  {
    set i | 0 <= i < |s| :: s[i].spectrumId
  }

  /** Where a stable insertion puts `m`: after every entry whose similarity does not exceed its own. */
  function InsertPosition(s: seq<ComparisonMatch>, m: ComparisonMatch): (k: nat)
    ensures k <= |s|
  {
    if |s| == 0 then 0
    else if m.similarity < s[|s| - 1].similarity then InsertPosition(s[..|s| - 1], m)
    else |s|
  }

  /** One step of the stable insertion sort. */
  function Insert(s: seq<ComparisonMatch>, m: ComparisonMatch): seq<ComparisonMatch>
  {
    if |s| == 0 then [m]
    else if m.similarity < s[|s| - 1].similarity then Insert(s[..|s| - 1], m) + [s[|s| - 1]]
    else s + [m]
  }

  /** Insertion splices `m` into `s` and changes nothing else. */
  lemma {:induction false} InsertSplices(s: seq<ComparisonMatch>, m: ComparisonMatch)
    ensures Insert(s, m) == s[..InsertPosition(s, m)] + [m] + s[InsertPosition(s, m)..]
  {
    if |s| > 0 && m.similarity < s[|s| - 1].similarity {
      var p := s[..|s| - 1];
      InsertSplices(p, m);
      var k := InsertPosition(p, m);
      assert p[..k] == s[..k];
      assert p[k..] + [s[|s| - 1]] == s[k..];
    }
  }

  /** In a sorted list, the insertion point separates the entries not above `m` from those above it. */
  lemma {:induction false} InsertPositionSeparates(s: seq<ComparisonMatch>, m: ComparisonMatch)
    requires Sorted(s)
    ensures forall i :: 0 <= i < InsertPosition(s, m) ==> s[i].similarity <= m.similarity
    ensures forall i :: InsertPosition(s, m) <= i < |s| ==> m.similarity < s[i].similarity
  {
    if |s| > 0 && m.similarity < s[|s| - 1].similarity {
      InsertPositionSeparates(s[..|s| - 1], m);
    }
  }

  /** The separating position is unique. */
  lemma PositionUnique(s: seq<ComparisonMatch>, m: ComparisonMatch, j: nat)
    requires Sorted(s) && j <= |s|
    requires forall i :: 0 <= i < j ==> s[i].similarity <= m.similarity
    requires forall i :: j <= i < |s| ==> m.similarity < s[i].similarity
    ensures j == InsertPosition(s, m)
  {
    var k := InsertPosition(s, m);
    InsertPositionSeparates(s, m);
    assert j < |s| ==> m.similarity < s[j].similarity;
    assert k < |s| ==> m.similarity < s[k].similarity;
  }

  /** Positions of a splice. */
  lemma SpliceIndex(s: seq<ComparisonMatch>, m: ComparisonMatch, k: nat)
    requires k <= |s|
    ensures var r := s[..k] + [m] + s[k..];
      && |r| == |s| + 1
      && r[k] == m
      && (forall i :: 0 <= i < k ==> r[i] == s[i])
      && (forall i :: k < i < |r| ==> r[i] == s[i - 1])
  {
  }

  /** A splice at a separating position of a sorted list is sorted. */
  lemma SpliceSorted(s: seq<ComparisonMatch>, m: ComparisonMatch, k: nat)
    requires Sorted(s) && k <= |s|
    requires forall i :: 0 <= i < k ==> s[i].similarity <= m.similarity
    requires forall i :: k <= i < |s| ==> m.similarity < s[i].similarity
    ensures Sorted(s[..k] + [m] + s[k..])
  {
    var r := s[..k] + [m] + s[k..];
    SpliceIndex(s, m, k);
    forall i, j | 0 <= i < j < |r|
      ensures r[i].similarity <= r[j].similarity
    {
      if j < k {
        assert r[i] == s[i] && r[j] == s[j];
      } else if j == k {
        assert r[i] == s[i];
      } else if i < k {
        assert r[i] == s[i] && r[j] == s[j - 1];
      } else if i == k {
        assert r[j] == s[j - 1];
      } else {
        assert r[i] == s[i - 1] && r[j] == s[j - 1];
      }
    }
  }

  /** Inserting into a sorted list keeps it sorted and adds exactly `m`. */
  lemma InsertKeepsSorted(s: seq<ComparisonMatch>, m: ComparisonMatch)
    requires Sorted(s)
    ensures Sorted(Insert(s, m))
    ensures multiset(Insert(s, m)) == multiset(s) + multiset{m}
  {
    var k := InsertPosition(s, m);
    InsertSplices(s, m);
    InsertPositionSeparates(s, m);
    SpliceSorted(s, m, k);
    assert s == s[..k] + s[k..];
  }

  /** The entries of `s` with similarity `v`, in their order in `s`. A sort is
      stable when it keeps each of these subsequences as it is. */
  function WithSimilarity(s: seq<ComparisonMatch>, v: real): seq<ComparisonMatch>
  {
    if |s| == 0 then []
    else WithSimilarity(s[..|s| - 1], v) + (if s[|s| - 1].similarity == v then [s[|s| - 1]] else [])
  }

  lemma WithSimilaritySnoc(s: seq<ComparisonMatch>, m: ComparisonMatch)
    ensures forall v :: WithSimilarity(s + [m], v) == WithSimilarity(s, v) + (if m.similarity == v then [m] else [])
  {
    assert (s + [m])[..|s|] == s;
  }

  /** A stable insertion appends `m` to the entries of its own similarity and
      leaves the order of every other similarity alone. */
  lemma {:induction false} InsertIsStable(s: seq<ComparisonMatch>, m: ComparisonMatch, v: real)
    ensures WithSimilarity(Insert(s, m), v) == WithSimilarity(s, v) + (if m.similarity == v then [m] else [])
  {
    if |s| == 0 {
      WithSimilaritySnoc(s, m);
    } else if m.similarity < s[|s| - 1].similarity {
      var p := s[..|s| - 1];
      var last := s[|s| - 1];
      InsertIsStable(p, m, v);
      WithSimilaritySnoc(Insert(p, m), last);
      WithSimilaritySnoc(p, last);
      assert s == p + [last];
      // `m` and `last` differ in similarity, so at most one of them has similarity `v`
      assert m.similarity != v || last.similarity != v;
    } else {
      WithSimilaritySnoc(s, m);
    }
  }

  lemma InsertIsStableAll(s: seq<ComparisonMatch>, m: ComparisonMatch)
    ensures forall v :: WithSimilarity(Insert(s, m), v) == WithSimilarity(s, v) + (if m.similarity == v then [m] else [])
  {
    forall v
      ensures WithSimilarity(Insert(s, m), v) == WithSimilarity(s, v) + (if m.similarity == v then [m] else [])
    {
      InsertIsStable(s, m, v);
    }
  }

  /** `Collections.sort` on a list of matches: ascending by similarity, a
      permutation of its input, and stable: entries of equal similarity keep
      their relative order. */
  function StableSort(s: seq<ComparisonMatch>): (r: seq<ComparisonMatch>)
    ensures Sorted(r)
    ensures multiset(r) == multiset(s)
    ensures forall v :: WithSimilarity(r, v) == WithSimilarity(s, v)
  {
    if |s| == 0 then []
    else
      var sortedPrefix := StableSort(s[..|s| - 1]);
      InsertKeepsSorted(sortedPrefix, s[|s| - 1]);
      InsertIsStableAll(sortedPrefix, s[|s| - 1]);
      WithSimilaritySnoc(s[..|s| - 1], s[|s| - 1]);
      assert s == s[..|s| - 1] + [s[|s| - 1]];
      Insert(sortedPrefix, s[|s| - 1])
  }

  /** A sorted list without its last entry is sorted, and that entry scores highest. */
  lemma SortedWithoutLast(s: seq<ComparisonMatch>)
    requires Sorted(s) && |s| > 0
    ensures Sorted(s[..|s| - 1])
    ensures |s| == 1 || s[|s| - 2].similarity <= s[|s| - 1].similarity
  {
  }

  /** An entry scoring no lower than the last of a list is inserted at its end. */
  lemma InsertTopAppends(s: seq<ComparisonMatch>, m: ComparisonMatch)
    requires |s| == 0 || s[|s| - 1].similarity <= m.similarity
    ensures Insert(s, m) == s + [m]
  {
  }

  /** Sorting an already sorted list leaves it as it is. */
  lemma {:induction false} SortingSortedIsIdentity(s: seq<ComparisonMatch>)
    requires Sorted(s)
    ensures StableSort(s) == s
  {
    if |s| > 0 {
      var p := s[..|s| - 1];
      var m := s[|s| - 1];
      SortedWithoutLast(s);
      SortingSortedIsIdentity(p);
      assert (p + [m])[..|p|] == p;
      InsertTopAppends(p, m);
      assert p + [m] == s;
    }
  }

  /** Sorting a sorted list with one entry appended is one stable insertion. */
  lemma SortAppended(s: seq<ComparisonMatch>, m: ComparisonMatch)
    requires Sorted(s)
    ensures StableSort(s + [m]) == Insert(s, m)
  {
    assert (s + [m])[..|s|] == s;
    SortingSortedIsIdentity(s);
  }

  /** Truncation to the `Capacity` highest entries of a sorted list (`subList(size - 30, size)`). */
  function KeepHighest(s: seq<ComparisonMatch>): (r: seq<ComparisonMatch>)
    ensures |r| == if |s| < Capacity then |s| else Capacity
    ensures Sorted(s) ==> Sorted(r)
    ensures s[..|s| - |r|] + r == s
  {
    if |s| > Capacity then s[|s| - Capacity..] else s
  }

  /** In a sorted list, everything before position `d` scores no higher than everything from `d` on. */
  lemma SortedSplit(t: seq<ComparisonMatch>, d: nat)
    requires Sorted(t) && d <= |t|
    ensures forall x, y :: x in t[..d] && y in t[d..] ==> x.similarity <= y.similarity
  {
    forall x, y | x in t[..d] && y in t[d..]
      ensures x.similarity <= y.similarity
    {
      var i :| 0 <= i < d && t[..d][i] == x;
      var j :| 0 <= j < |t| - d && t[d..][j] == y;
      assert t[i] == x && t[d + j] == y;
    }
  }

  /** Sorting then truncating retains the `Capacity` highest-scoring entries: every
      entry that was dropped scores no higher than any entry that was kept. */
  lemma TopOfSortIsHighest(s: seq<ComparisonMatch>)
    ensures var r := KeepHighest(StableSort(s));
      && |r| == (if |s| < Capacity then |s| else Capacity)
      && multiset(r) <= multiset(s)
      && forall x, y :: x in multiset(s) - multiset(r) && y in r ==> x.similarity <= y.similarity
  {
    var t := StableSort(s);
    var r := KeepHighest(t);
    var d := |t| - |r|;
    assert t[..d] + t[d..] == t;
    assert t[d..] == r;
    assert multiset(t) == multiset(t[..d]) + multiset(r);
    assert multiset(s) - multiset(r) == multiset(t[..d]);
    SortedSplit(t, d);
    forall x | x in multiset(s) - multiset(r)
      ensures x in t[..d]
    {
    }
  }

  /** Dropping the first entry of a splice placed after it. */
  lemma SpliceDropFirst(s: seq<ComparisonMatch>, m: ComparisonMatch, k: nat)
    requires 1 <= k <= |s|
    ensures multiset((s[..k] + [m] + s[k..])[1..]) == multiset(s[1..]) + multiset{m}
    ensures m in (s[..k] + [m] + s[k..])[1..]
  {
    var whole := s[..k] + [m] + s[k..];
    assert whole[1..] == s[1..k] + [m] + s[k..];
    assert s[1..] == s[1..k] + s[k..];
  }

  /** The suffix of a splice past a position at or after the spliced entry. */
  lemma SpliceSuffixAfter(s: seq<ComparisonMatch>, m: ComparisonMatch, k: nat, d: nat)
    requires k < d <= |s|
    ensures (s[..k] + [m] + s[k..])[d + 1..] == s[d..]
  {
    SpliceIndex(s, m, k);
  }

  /** Splicing into a suffix is splicing into the whole list and dropping the prefix. */
  lemma SpliceIntoSuffix(s: seq<ComparisonMatch>, m: ComparisonMatch, k: nat, d: nat)
    requires d <= k <= |s|
    ensures var t := s[d..];
      t[..k - d] + [m] + t[k - d..] == (s[..k] + [m] + s[k..])[d..]
  {
    SpliceIndex(s, m, k);
    var t := s[d..];
    SpliceIndex(t, m, k - d);
  }

  /** The commutation when `m` lands inside the retained suffix. */
  lemma KeepInsertCommutesInside(s: seq<ComparisonMatch>, m: ComparisonMatch, d: nat)
    requires Sorted(s) && d == |s| - Capacity && d > 0
    requires d <= InsertPosition(s, m)
    ensures KeepHighest(Insert(s[d..], m)) == KeepHighest(Insert(s, m))
  {
    var t := s[d..];
    var k := InsertPosition(s, m);
    InsertSplices(s, m);
    InsertSplices(t, m);
    InsertPositionSeparates(s, m);
    PositionUnique(t, m, k - d);
    SpliceIntoSuffix(s, m, k, d);
    var whole := s[..k] + [m] + s[k..];
    var part := t[..k - d] + [m] + t[k - d..];
    assert part == whole[d..];
    assert part[1..] == whole[d + 1..];
  }

  /** The commutation when `m` falls below the retained suffix. */
  lemma KeepInsertCommutesBelow(s: seq<ComparisonMatch>, m: ComparisonMatch, d: nat)
    requires Sorted(s) && d == |s| - Capacity && d > 0
    requires InsertPosition(s, m) < d
    ensures KeepHighest(Insert(s[d..], m)) == KeepHighest(Insert(s, m))
  {
    var t := s[d..];
    var k := InsertPosition(s, m);
    InsertSplices(s, m);
    InsertSplices(t, m);
    InsertPositionSeparates(s, m);
    PositionUnique(t, m, 0);
    assert t[..0] + [m] + t[0..] == [m] + t;
    SpliceSuffixAfter(s, m, k, d);
    assert ([m] + t)[1..] == t;
  }

  /** Truncating before or after one stable insertion retains the same entries.
      This is what lets the best-match list forget everything below its lowest
      entry without changing which entries it ends up with. */
  lemma KeepInsertCommutes(s: seq<ComparisonMatch>, m: ComparisonMatch)
    requires Sorted(s)
    ensures KeepHighest(Insert(KeepHighest(s), m)) == KeepHighest(Insert(s, m))
  {
    if |s| > Capacity {
      var d := |s| - Capacity;
      assert KeepHighest(s) == s[d..];
      if d <= InsertPosition(s, m) {
        KeepInsertCommutesInside(s, m, d);
      } else {
        KeepInsertCommutesBelow(s, m, d);
      }
    }
  }
}

=== FILE: consensus.dfy ===
/** The consensus spectrum builder a cluster owns. Its aggregation of peaks is not
    part of this model: a builder is represented by its id and the ordered history
    of what was folded into it, which is all the cluster's contracts speak about. */
module Consensus {
  import opened Spectra

  /** One call made on a builder. */
  datatype Contribution =
    | AddedSpectra(spectra: seq<BinarySpectrum>)
    | AddedConsensus(source: ConsensusBuilder)

  datatype ConsensusBuilder = ConsensusBuilder(uui: string, contributions: seq<Contribution>)
  {
    /** `addSpectra`: fold raw spectra into the consensus. */
    function AddSpectra(spectra: seq<BinarySpectrum>): ConsensusBuilder
    {
      this.(contributions := contributions + [AddedSpectra(spectra)])
    }

    /** `addConsensusSpectrum`: fold another builder into this one. */
    function AddConsensusSpectrum(source: ConsensusBuilder): ConsensusBuilder
    {
      this.(contributions := contributions + [AddedConsensus(source)])
    }
  }
}

=== FILE: doubles.dfy ===
/** Java `double` values, as far as the scoring code depends on them: finite
    values (kept exact, so rounding and overflow are not modelled), the two
    infinities and NaN, with the special-value rules of IEEE 754 arithmetic. */
module Doubles {

  datatype Double = Finite(value: real) | PosInf | NegInf | NaN

  /** `Double.isInfinite`. */
  predicate IsInfinite(d: Double)
  {
    d.PosInf? || d.NegInf?
  }

  /** `a + b`. */
  function Add(a: Double, b: Double): Double
  {
    match (a, b)
    case (NaN, _) => NaN
    case (_, NaN) => NaN
    case (PosInf, NegInf) => NaN
    case (NegInf, PosInf) => NaN
    case (PosInf, _) => PosInf
    case (_, PosInf) => PosInf
    case (NegInf, _) => NegInf
    case (_, NegInf) => NegInf
    case (Finite(x), Finite(y)) => Finite(x + y)
  }

  /** `-a`. */
  function Negate(a: Double): Double
  {
    match a
    case Finite(x) => Finite(-x)
    case PosInf => NegInf
    case NegInf => PosInf
    case NaN => NaN
  }

  /** `a - b`. */
  function Subtract(a: Double, b: Double): Double
  {
    Add(a, Negate(b))
  }

  /** `k * a` for a constant `k`. */
  function Times(k: real, a: Double): Double
  {
    match a
    case Finite(x) => Finite(k * x)
    case NaN => NaN
    case PosInf => if k > 0.0 then PosInf else if k < 0.0 then NegInf else NaN
    case NegInf => if k > 0.0 then NegInf else if k < 0.0 then PosInf else NaN
  }

  /** `Math.log`: NaN below zero and for NaN, negative infinity at zero, positive
      infinity at positive infinity; on the positive reals it is `ln`, which this
      model leaves uninterpreted. */
  function Log(ln: real -> real, x: Double): (r: Double)
    ensures r == NegInf <==> x == Finite(0.0)
    ensures r == PosInf <==> x == PosInf
  {
    match x
    case NaN => NaN
    case NegInf => NaN
    case PosInf => PosInf
    case Finite(v) => if v < 0.0 then NaN else if v == 0.0 then NegInf else Finite(ln(v))
  }

  /** `Math.sqrt`: NaN below zero and for NaN, positive infinity at positive
      infinity; on the non-negative reals it is `sqrt`, left uninterpreted. */
  function Sqrt(sqrt: real -> real, x: Double): (r: Double)
    ensures r.NaN? <==> x.NaN? || x.NegInf? || (x.Finite? && x.value < 0.0)
  {
    match x
    case NaN => NaN
    case NegInf => NaN
    case PosInf => PosInf
    case Finite(v) => if v < 0.0 then NaN else Finite(sqrt(v))
  }
}

=== FILE: fisher_intensity.dfy ===
/** The combined Fisher/intensity similarity of spectra-cluster v1: a
    hypergeometric test on the number of shared peaks and a Kendall's tau test
    on their intensities, combined with Fisher's method. The probability
    distributions are parameters; the model fixes how the score treats their
    special values. */
module CombinedFisherIntensity {
  import opened Wrappers
  import opened Spectra
  import opened Doubles
  import opened SharedPeaks

  /** The numerical library calls the score is built from. */
  datatype Numerics = Numerics(
    ln: real -> real,                                   // Math.log on the positive reals
    sqrt: real -> real,                                 // Math.sqrt on the non-negative reals
    hypergeometricPdf: (int, int, int, int) -> Double,  // HyperGeometric(N, s, n).pdf(k), as (N, s, n, k)
    kendallTau: (seq<int>, seq<int>) -> Double,         // KendallsCorrelation.correlation
    normalCdf: (Double, Double) -> Double,              // Normal(0, sd).cdf(x), as (sd, x)
    chiSquaredDensity: Double -> Double)                // ChiSquaredDistribution(4).density

  /** Hypergeometric parameters that describe a draw: both sample sizes within
      the population and the count of shared peaks within both samples. */
  predicate ValidHypergeometric(N: int, s: int, n: int, k: int)
  {
    0 <= k && k <= s <= N && k <= n <= N
  }

  /** Libraries that return probabilities where probabilities are due: the
      hypergeometric mass for valid parameters, the normal distribution
      function for a finite positive standard deviation, and the chi-squared
      density at a finite statistic; and the square root of a positive number
      is positive. Nothing is assumed of other arguments, such as a NaN
      standard deviation or a population smaller than a sample. */
  ghost predicate InRange(num: Numerics)
  {
    && (forall N, s, n, k :: ValidHypergeometric(N, s, n, k) ==>
          IsProbability(num.hypergeometricPdf(N, s, n, k)))
    && (forall v :: v > 0.0 ==> num.sqrt(v) > 0.0)
    && (forall sd: Double, x: Double :: sd.Finite? && sd.value > 0.0 ==> IsProbability(num.normalCdf(sd, x)))
    && (forall x: Double :: x.Finite? ==> num.chiSquaredDensity(x).Finite? && 0.0 <= num.chiSquaredDensity(x).value)
  }

  predicate IsProbability(p: Double)
  {
    p.Finite? && 0.0 <= p.value <= 1.0
  }

  /** The hypergeometric probability used by the score: a probability of zero
      is replaced by one, so that its logarithm is never negative infinity. */
  function HypergeometricFallback(p: Double): (r: Double)
    ensures p == Finite(0.0) ==> r == Finite(1.0)
    ensures r != Finite(0.0)
    ensures p != Finite(0.0) ==> r == p
    ensures IsProbability(p) ==> IsProbability(r) && r.value > 0.0
  {
    if p == Finite(0.0) then Finite(1.0) else p
  }

  lemma QuotientInUnitInterval(n: real, d: real)
    requires 0.0 < n <= d
    ensures 0.0 < n / d <= 1.0
  {
    assert n / d * d == n;
  }

  /** The variance of Kendall's tau for `k` pairs of independent ranks,
      2(2k + 5) / (9k(k - 1)); it lies in (0, 1] from two pairs on. */
  function KendallVariance(k: nat): (v: real)
    requires k >= 2
    ensures 0.0 < v <= 1.0
  {
    var x := k as real;
    var m := x - 2.0;
    assert m * m >= 0.0;
    // both sides as polynomials in m = k - 2 >= 0
    assert 9.0 * x * (x - 1.0) == 9.0 * (m * m) + 27.0 * m + 18.0;
    assert 2.0 * (2.0 * x + 5.0) == 4.0 * m + 18.0;
    QuotientInUnitInterval(2.0 * (2.0 * x + 5.0), 9.0 * x * (x - 1.0));
    (2.0 * (2.0 * x + 5.0)) / (9.0 * x * (x - 1.0))
  }

  /** The variance as the double the source computes: for no pairs at all the
      denominator is the negative zero 9 * 0 * (0 - 1), and ten divided by it
      is negative infinity. One pair never reaches this computation. */
  function KendallVarianceDouble(k: nat): (v: Double)
    requires k != 1
    ensures k == 0 ==> v == NegInf
    ensures k >= 2 ==> v.Finite? && v.value > 0.0
  {
    if k == 0 then NegInf else Finite(KendallVariance(k))
  }

  /** The probability that the intensities of the shared peaks are correlated
      no better than by chance. An undefined tau (NaN) or a single shared peak
      gives one; otherwise tau is taken against a normal distribution of mean
      zero whose standard deviation is the root of the Kendall variance, which
      is a finite positive number from two pairs on and NaN for none. */
  function AssessKendallCorrelation(num: Numerics, shared1: seq<int>, shared2: seq<int>): (p: Double)
    ensures num.kendallTau(shared1, shared2).NaN? ==> p == Finite(1.0)
    ensures |shared1| == 1 ==> p == Finite(1.0)
    ensures !num.kendallTau(shared1, shared2).NaN? && |shared1| >= 2 ==>
      p == Subtract(Finite(1.0),
                    num.normalCdf(Finite(num.sqrt(KendallVariance(|shared1|))), num.kendallTau(shared1, shared2)))
    ensures !num.kendallTau(shared1, shared2).NaN? && |shared1| == 0 ==>
      p == Subtract(Finite(1.0), num.normalCdf(NaN, num.kendallTau(shared1, shared2)))
  {
    var tau := num.kendallTau(shared1, shared2);
    if tau.NaN? then Finite(1.0)
    else
      var k := |shared1|;
      if k == 1 then Finite(1.0)
      else
        var sd := Sqrt(num.sqrt, KendallVarianceDouble(k));
        Subtract(Finite(1.0), num.normalCdf(sd, tau))
  }

  /** With a normal distribution function that returns probabilities for a
      finite positive standard deviation, the Kendall assessment is a
      probability too, except for no pairs with a defined tau: there the
      standard deviation is NaN (see `AssessKendallCorrelation`). */
  lemma KendallIsProbability(num: Numerics, shared1: seq<int>, shared2: seq<int>)
    requires InRange(num)
    requires |shared1| == 0 ==> num.kendallTau(shared1, shared2).NaN?
    ensures IsProbability(AssessKendallCorrelation(num, shared1, shared2))
  {
    var tau := num.kendallTau(shared1, shared2);
    if !tau.NaN? && |shared1| >= 2 {
      var v := KendallVariance(|shared1|);
      assert num.sqrt(v) > 0.0;
      assert IsProbability(num.normalCdf(Finite(num.sqrt(v)), tau));
    }
  }

  /** Fisher's statistic -2 (ln p1 + ln p2): a finite number for two positive
      probabilities, positive infinity when one of two non-negative numbers is
      zero, never NaN or negative infinity for two probabilities, and NaN
      whenever an input is NaN. */
  function FisherStatistic(num: Numerics, p1: Double, p2: Double): (x: Double)
    ensures p1.Finite? && p1.value > 0.0 && p2.Finite? && p2.value > 0.0 ==>
      x == Finite(-2.0 * (num.ln(p1.value) + num.ln(p2.value)))
    ensures p1.Finite? && p1.value >= 0.0 && p2.Finite? && p2.value >= 0.0
      && (p1.value == 0.0 || p2.value == 0.0)
      ==> x == PosInf
    ensures IsProbability(p1) && IsProbability(p2) ==> x.Finite? || x == PosInf
    ensures p1.NaN? || p2.NaN? ==> x.NaN?
  {
    Times(-2.0, Add(Log(num.ln, p1), Log(num.ln, p2)))
  }

  /** Fisher's combination of two probabilities as a score: a statistic of
      zero scores zero, an infinite statistic scores positive infinity (the
      probability of it is taken as zero), and any other statistic scores the
      negative logarithm of the chi-squared density (four degrees of freedom)
      at it. */
  function CombineProbabilities(num: Numerics, p1: Double, p2: Double): (r: Double)
    ensures FisherStatistic(num, p1, p2) == Finite(0.0) ==> r == Finite(0.0)
    ensures IsInfinite(FisherStatistic(num, p1, p2)) ==> r == PosInf
    ensures FisherStatistic(num, p1, p2) != Finite(0.0) && !IsInfinite(FisherStatistic(num, p1, p2)) ==>
      r == Negate(Log(num.ln, num.chiSquaredDensity(FisherStatistic(num, p1, p2))))
  {
    var combined := FisherStatistic(num, p1, p2);
    if combined == Finite(0.0) then Finite(0.0)
    else
      var pValue := if IsInfinite(combined) then Finite(0.0) else num.chiSquaredDensity(combined);
      Negate(Log(num.ln, pValue))
  }

  /** A probability of zero on either side makes the score positive infinity,
      whatever finite non-negative probability the other side has. */
  lemma ZeroProbabilityScoresInfinite(num: Numerics, p1: Double, p2: Double)
    requires p1 == Finite(0.0) || p2 == Finite(0.0)
    requires p1.Finite? && p1.value >= 0.0 && p2.Finite? && p2.value >= 0.0
    ensures CombineProbabilities(num, p1, p2) == PosInf
  {
  }

  /** Two certain outcomes combine to the score zero. */
  lemma CertainProbabilitiesScoreZero(num: Numerics)
    requires num.ln(1.0) == 0.0
    ensures CombineProbabilities(num, Finite(1.0), Finite(1.0)) == Finite(0.0)
  {
  }

  /** Fisher's method does not depend on the order of the two probabilities. */
  lemma CombineIsSymmetric(num: Numerics, p1: Double, p2: Double)
    ensures CombineProbabilities(num, p1, p2) == CombineProbabilities(num, p2, p1)
  {
    assert Add(Log(num.ln, p1), Log(num.ln, p2)) == Add(Log(num.ln, p2), Log(num.ln, p1));
  }

  /** Two probabilities, each in [0, 1], never combine to NaN when the
      chi-squared density is finite and non-negative at finite statistics. */
  lemma CombinedProbabilitiesAreNumbers(num: Numerics, p1: Double, p2: Double)
    requires IsProbability(p1) && IsProbability(p2)
    requires forall x: Double :: x.Finite? ==> num.chiSquaredDensity(x).Finite? && 0.0 <= num.chiSquaredDensity(x).value
    ensures !CombineProbabilities(num, p1, p2).NaN?
  {
  }

  /** The score `correlation` computes for two non-empty peak lists, stated
      over the bins the two share rather than over the walk. */
  function ReferenceScore(num: Numerics, peaks1: seq<BinaryPeak>, peaks2: seq<BinaryPeak>): Double
    requires |peaks1| > 0 && |peaks2| > 0
  {
    var common := CommonMz(peaks1, peaks2);
    var hgt := HypergeometricFallback(
      num.hypergeometricPdf(PopulationSize(peaks1, peaks2), |peaks1|, |peaks2|, |common|));
    CombineProbabilities(num, hgt,
      AssessKendallCorrelation(num, IntensitiesAt(peaks1, common), IntensitiesAt(peaks2, common)))
  }

  /** Reading the first and last peak of an empty peak array fails. */
  datatype CorrelationError = EmptyPeakList

  /** `correlation`: fails exactly when either spectrum has no peaks; on peak
      lists in strictly ascending m/z order it is the reference score. It is
      never NaN when the libraries stay in range, the population is at least
      as large as either peak count, and tau is undefined for no pairs; the
      score can be NaN outside these conditions. */
  method Correlation(num: Numerics, spectrum1: BinarySpectrum, spectrum2: BinarySpectrum)
    returns (r: Result<Double, CorrelationError>)
    ensures r.Failure? <==> |spectrum1.peaks| == 0 || |spectrum2.peaks| == 0
    ensures r.Success? && StrictlyAscending(spectrum1.peaks) && StrictlyAscending(spectrum2.peaks) ==>
      r.value == ReferenceScore(num, spectrum1.peaks, spectrum2.peaks)
    ensures r.Success? && InRange(num)
      && |spectrum1.peaks| <= PopulationSize(spectrum1.peaks, spectrum2.peaks)
      && |spectrum2.peaks| <= PopulationSize(spectrum1.peaks, spectrum2.peaks)
      && num.kendallTau([], []).NaN?
      ==> !r.value.NaN?
  {
    var peaks1 := spectrum1.peaks;
    var peaks2 := spectrum2.peaks;
    var shared1, shared2 := SharedPeakWalk(peaks1, peaks2);
    if |peaks1| == 0 || |peaks2| == 0 {
      return Failure(EmptyPeakList);
    }
    var population := PopulationSize(peaks1, peaks2);
    var hgtScore := HypergeometricFallback(num.hypergeometricPdf(population, |peaks1|, |peaks2|, |shared1|));
    var kendallP := AssessKendallCorrelation(num, shared1, shared2);
    if InRange(num) && |peaks1| <= population && |peaks2| <= population && num.kendallTau([], []).NaN? {
      assert ValidHypergeometric(population, |peaks1|, |peaks2|, |shared1|);
      if |shared1| == 0 {
        assert shared1 == [] && shared2 == [];
      }
      KendallIsProbability(num, shared1, shared2);
      CombinedProbabilitiesAreNumbers(num, hgtScore, kendallP);
    }
    return Success(CombineProbabilities(num, hgtScore, kendallP));
  }

  lemma PopulationSizeSymmetric(peaks1: seq<BinaryPeak>, peaks2: seq<BinaryPeak>)
    requires |peaks1| > 0 && |peaks2| > 0
    ensures PopulationSize(peaks2, peaks1) == PopulationSize(peaks1, peaks2)
  {
  }

  lemma KendallSwap(num: Numerics, shared1: seq<int>, shared2: seq<int>)
    requires |shared1| == |shared2|
    requires num.kendallTau(shared1, shared2) == num.kendallTau(shared2, shared1)
    ensures AssessKendallCorrelation(num, shared2, shared1) == AssessKendallCorrelation(num, shared1, shared2)
  {
  }

  /** On strictly ascending peak lists the score does not depend on which
      spectrum comes first, given a hypergeometric mass symmetric in the two
      sample sizes and a tau symmetric in its arguments, as both are in
      theory; only those two point values are assumed. */
  lemma ScoreIsSymmetric(num: Numerics, peaks1: seq<BinaryPeak>, peaks2: seq<BinaryPeak>)
    requires |peaks1| > 0 && |peaks2| > 0
    requires StrictlyAscending(peaks1) && StrictlyAscending(peaks2)
    requires num.hypergeometricPdf(PopulationSize(peaks1, peaks2), |peaks1|, |peaks2|, |CommonMz(peaks1, peaks2)|)
          == num.hypergeometricPdf(PopulationSize(peaks1, peaks2), |peaks2|, |peaks1|, |CommonMz(peaks1, peaks2)|)
    requires num.kendallTau(IntensitiesAt(peaks1, CommonMz(peaks1, peaks2)), IntensitiesAt(peaks2, CommonMz(peaks1, peaks2)))
          == num.kendallTau(IntensitiesAt(peaks2, CommonMz(peaks1, peaks2)), IntensitiesAt(peaks1, CommonMz(peaks1, peaks2)))
    ensures ReferenceScore(num, peaks1, peaks2) == ReferenceScore(num, peaks2, peaks1)
  {
    var common := CommonMz(peaks1, peaks2);
    CommonMzSymmetric(peaks1, peaks2);
    PopulationSizeSymmetric(peaks1, peaks2);
    KendallSwap(num, IntensitiesAt(peaks1, common), IntensitiesAt(peaks2, common));
  }
}

=== FILE: greedy_spectral_cluster.dfy ===
/** The cluster entity: member spectrum ids, an owned consensus builder and a
    bounded best-match list with a cached lowest score and a lazily rebuilt id
    set. Each operation of the mutable Java object is a function here that
    returns the cluster as it is after the call, or the exception it throws. */
module GreedySpectralCluster {
  import opened Wrappers
  import opened Spectra
  import opened Consensus
  import opened ComparisonMatches

  /** Exceptions the cluster's operations throw. */
  datatype ClusterError =
    | NullSpectrum     // addSpectra passes on an array with an unfilled (null) slot
    | EmptyMatchList   // updateComparisonMatches reads the first entry of an empty list

  /** Precursor m/z and charge reported by a cluster without members. */
  const NoPrecursor: int := -1

  datatype Cluster = Cluster(
    id: string,
    members: set<string>,
    builder: ConsensusBuilder,
    matches: seq<ComparisonMatch>,
    lowest: real,
    matchIdCache: Option<set<string>>)

  /** The object invariant: the best-match list is bounded and sorted, the cached
      lowest score is that of its first entry (0 while it is empty), and a cached
      id set, when present, is the set of ids in the list. */
  predicate Valid(c: Cluster)
  {
    && |c.matches| <= Capacity
    && Sorted(c.matches)
    && c.lowest == (if |c.matches| == 0 then 0.0 else c.matches[0].similarity)
    && (c.matchIdCache.Some? ==> c.matchIdCache.value == MatchIds(c.matches))
  }

  /** The constructor: the id is the builder's, there are no members and no matches. */
  function NewCluster(builder: ConsensusBuilder): (c: Cluster)
    ensures Valid(c)
    ensures c.id == builder.uui && c.builder == builder
    ensures c.members == {} && c.matches == []
  {
    Cluster(builder.uui, {}, builder, [], 0.0, None)
  }

  /** `getPrecursorMz`: the sentinel without members, the builder's value otherwise. */
  function PrecursorMz(c: Cluster, consensusMz: ConsensusBuilder -> int): (mz: int)
    ensures mz == NoPrecursor <==> c.members == {} || consensusMz(c.builder) == NoPrecursor
    ensures c.members != {} ==> mz == consensusMz(c.builder)
  {
    if c.members == {} then NoPrecursor else consensusMz(c.builder)
  }

  /** `getPrecursorCharge`: the sentinel without members, the builder's value otherwise. */
  function PrecursorCharge(c: Cluster, consensusCharge: ConsensusBuilder -> int): (charge: int)
    ensures charge == NoPrecursor <==> c.members == {} || consensusCharge(c.builder) == NoPrecursor
    ensures c.members != {} ==> charge == consensusCharge(c.builder)
  {
    if c.members == {} then NoPrecursor else consensusCharge(c.builder)
  }

  /** A fresh cluster reports the sentinel for both precursor m/z and charge,
      whatever its builder would report. */
  lemma NewClusterHasNoPrecursor(builder: ConsensusBuilder, consensusMz: ConsensusBuilder -> int,
                                 consensusCharge: ConsensusBuilder -> int)
    ensures var c := NewCluster(builder);
      && c.id == builder.uui
      && PrecursorMz(c, consensusMz) == NoPrecursor
      && PrecursorCharge(c, consensusCharge) == NoPrecursor
  {
  }

  // ---------------------------------------------------------------- addSpectra

  /** The input spectra whose ids are not members, in input order, each as
      often as it occurs in the input. */
  function NonMembers(s: seq<BinarySpectrum>, members: set<string>): (r: seq<BinarySpectrum>)
    ensures forall x :: x in r <==> x in s && x.uui !in members
    ensures forall x :: multiset(r)[x] == if x.uui in members then 0 else multiset(s)[x]
    ensures |r| <= |s|
    ensures (forall i :: 0 <= i < |s| ==> s[i].uui !in members) ==> r == s
  {
    if |s| == 0 then []
    else
      var last := s[|s| - 1];
      assert s == s[..|s| - 1] + [last];
      NonMembers(s[..|s| - 1], members) + (if last.uui in members then [] else [last])
  }

  /** Some id that is already a member occurs more than once in the input. */
  predicate RepeatsMember(s: seq<BinarySpectrum>, members: set<string>)
  {
    exists i, j :: 0 <= i < j < |s| && s[i].uui == s[j].uui && s[i].uui in members
  }

  lemma IdsAppend(s: seq<BinarySpectrum>, x: BinarySpectrum)
    ensures Ids(s + [x]) == Ids(s) + {x.uui}
  {
    var t := s + [x];
    forall y | y in Ids(t) ensures y in Ids(s) + {x.uui} {
      var i :| 0 <= i < |t| && t[i].uui == y;
      if i < |s| { assert s[i] == t[i]; }
    }
    forall y | y in Ids(s) ensures y in Ids(t) {
      var i :| 0 <= i < |s| && s[i].uui == y;
      assert t[i] == s[i];
    }
    assert t[|s|] == x;
  }

  lemma RepeatsMemberAppend(s: seq<BinarySpectrum>, x: BinarySpectrum, members: set<string>)
    ensures RepeatsMember(s + [x], members) <==>
      RepeatsMember(s, members) || (x.uui in members && x.uui in Ids(s))
  {
    var t := s + [x];
    if RepeatsMember(t, members) && !RepeatsMember(s, members) {
      var i, j :| 0 <= i < j < |t| && t[i].uui == t[j].uui && t[i].uui in members;
      assert j == |s|;
      assert s[i] == t[i];
    }
    if x.uui in members && x.uui in Ids(s) {
      var i :| 0 <= i < |s| && s[i].uui == x.uui;
      assert t[i] == s[i] && t[|s|] == x;
    }
    if RepeatsMember(s, members) {
      var i, j :| 0 <= i < j < |s| && s[i].uui == s[j].uui && s[i].uui in members;
      assert t[i] == s[i] && t[j] == s[j];
    }
  }

  /** The number of duplicate ids plus the number of non-member entries. */
  function Accounted(s: seq<BinarySpectrum>, members: set<string>): nat
  {
    |Ids(s) * members| + |NonMembers(s, members)|
  }

  /** One step of `DuplicateCount`: appending a member's spectrum. */
  lemma DuplicateCountMemberStep(p: seq<BinarySpectrum>, x: BinarySpectrum, members: set<string>)
    requires x.uui in members
    ensures Accounted(p + [x], members) == Accounted(p, members) + (if x.uui in Ids(p) then 0 else 1)
    ensures RepeatsMember(p + [x], members) <==> RepeatsMember(p, members) || x.uui in Ids(p)
  {
    var s := p + [x];
    assert s[..|s| - 1] == p;
    RepeatsMemberAppend(p, x, members);
    assert NonMembers(s, members) == NonMembers(p, members);
    MemberIdsAppend(p, x, members);
  }

  /** Appending a member's spectrum adds its id to the duplicate ids, unless it is there. */
  lemma MemberIdsAppend(p: seq<BinarySpectrum>, x: BinarySpectrum, members: set<string>)
    requires x.uui in members
    ensures |Ids(p + [x]) * members| == |Ids(p) * members| + (if x.uui in Ids(p) then 0 else 1)
  {
    IdsAppend(p, x);
    var before := Ids(p) * members;
    if x.uui !in Ids(p) {
      assert Ids(p + [x]) * members == before + {x.uui};
    } else {
      assert Ids(p + [x]) * members == before;
    }
  }

  /** One step of `DuplicateCount`: appending a non-member's spectrum. */
  lemma DuplicateCountNonMemberStep(p: seq<BinarySpectrum>, x: BinarySpectrum, members: set<string>)
    requires x.uui !in members
    ensures Accounted(p + [x], members) == Accounted(p, members) + 1
    ensures RepeatsMember(p + [x], members) <==> RepeatsMember(p, members)
  {
    var s := p + [x];
    assert s[..|s| - 1] == p;
    IdsAppend(p, x);
    RepeatsMemberAppend(p, x, members);
    assert NonMembers(s, members) == NonMembers(p, members) + [x];
    assert Ids(s) * members == Ids(p) * members;
  }

  /** The counting fact behind `addSpectra`'s filter: the duplicate ids plus the
      non-member entries never outnumber the input, and they account for all of
      it exactly when no member id is repeated. */
  lemma {:induction false} DuplicateCount(s: seq<BinarySpectrum>, members: set<string>)
    ensures |Ids(s) * members| + |NonMembers(s, members)| <= |s|
    ensures |Ids(s) * members| + |NonMembers(s, members)| == |s| <==> !RepeatsMember(s, members)
  {
    if |s| > 0 {
      var p := s[..|s| - 1];
      var x := s[|s| - 1];
      assert s == p + [x];
      DuplicateCount(p, members);
      if x.uui in members {
        DuplicateCountMemberStep(p, x, members);
      } else {
        DuplicateCountNonMemberStep(p, x, members);
      }
    }
  }

  /** A non-member's id reaches the filtered array. */
  lemma NonMemberIdKept(s: seq<BinarySpectrum>, members: set<string>, i: int)
    requires 0 <= i < |s| && s[i].uui !in members
    ensures s[i].uui in Ids(NonMembers(s, members))
  {
    var r := NonMembers(s, members);
    assert s[i] in r;
    var j :| 0 <= j < |r| && r[j] == s[i];
  }

  /** Every id of the filtered array is an input id. */
  lemma KeptIdIsInput(s: seq<BinarySpectrum>, members: set<string>, j: int)
    requires 0 <= j < |NonMembers(s, members)|
    ensures NonMembers(s, members)[j].uui in Ids(s)
  {
    var r := NonMembers(s, members);
    assert r[j] in s;
    var i :| 0 <= i < |s| && s[i] == r[j];
  }

  /** Adding the non-members' ids adds every input id. */
  lemma IdsOfNonMembers(s: seq<BinarySpectrum>, members: set<string>)
    ensures members + Ids(NonMembers(s, members)) == members + Ids(s)
  {
    var r := NonMembers(s, members);
    forall y | y in Ids(s) && y !in members ensures y in Ids(r) {
      var i :| 0 <= i < |s| && s[i].uui == y;
      NonMemberIdKept(s, members, i);
    }
    forall y | y in Ids(r) ensures y in Ids(s) {
      var j :| 0 <= j < |r| && r[j].uui == y;
      KeptIdIsInput(s, members, j);
    }
  }

  /** The facts about an input that decide which branch of `addSpectra` runs. */
  lemma AddSpectraCases(s: seq<BinarySpectrum>, members: set<string>)
    ensures Ids(s) <= members ==> NonMembers(s, members) == []
    ensures |s| > 0 ==> s[0].uui in Ids(s)
    ensures RepeatsMember(s, members) ==> Ids(s) * members != {}
    ensures Ids(s) * members == {} ==> NonMembers(s, members) == s
  {
    if Ids(s) <= members {
      forall x | x in s ensures x.uui in members {
        var i :| 0 <= i < |s| && s[i] == x;
        assert s[i].uui in Ids(s);
      }
    }
    if RepeatsMember(s, members) {
      var i, j :| 0 <= i < j < |s| && s[i].uui == s[j].uui && s[i].uui in members;
      assert s[i].uui in Ids(s);
    }
    if Ids(s) * members == {} {
      forall i | 0 <= i < |s| ensures s[i].uui !in members {
        assert s[i].uui in Ids(s);
        assert s[i].uui !in Ids(s) * members;
      }
    }
  }

  /** `addSpectra`. A null or empty argument, or one whose ids are all (distinct)
      members already, changes nothing and does not reach the builder. Otherwise
      the builder receives exactly the non-member spectra, in input order, and
      the members become the old members plus every input id. When a member id
      occurs twice in the input the filtered array keeps an unfilled slot and
      the call fails with a null-pointer exception. */
  function AddSpectra(c: Cluster, spectraToAdd: Option<seq<BinarySpectrum>>): (r: Result<Cluster, ClusterError>)
    ensures spectraToAdd.None? ==> r == Success(c)
    ensures spectraToAdd.Some? ==> var s := spectraToAdd.value;
      && (r.Failure? <==> RepeatsMember(s, c.members))
      && (!RepeatsMember(s, c.members) && Ids(s) <= c.members ==> r == Success(c))
      && (r.Success? ==> r.value.members == c.members + Ids(s))
      && (r.Success? && !(Ids(s) <= c.members) ==>
            r.value == c.(builder := c.builder.AddSpectra(NonMembers(s, c.members)),
                          members := c.members + Ids(s)))
  {
    if spectraToAdd.None? then Success(c)
    else
      var s := spectraToAdd.value;
      DuplicateCount(s, c.members);
      IdsOfNonMembers(s, c.members);
      AddSpectraCases(s, c.members);
      if |s| < 1 then Success(c)
      else
        var duplicateIds := Ids(s) * c.members;
        if duplicateIds != {} && |duplicateIds| == |s| then Success(c)
        else
          var toAdd := if duplicateIds == {} then s else NonMembers(s, c.members);
          if |toAdd| < |s| - |duplicateIds| then Failure(NullSpectrum)
          else Success(c.(builder := c.builder.AddSpectra(toAdd), members := c.members + Ids(toAdd)))
  }

  // ------------------------------------------------ the bounded best-match list

  /** `updateComparisonMatches`: stable sort, keep the `Capacity` highest, cache the
      lowest score and drop the cached id set. Fails when there is nothing to keep. */
  function UpdateComparisonMatches(c: Cluster, pending: seq<ComparisonMatch>): (r: Result<Cluster, ClusterError>)
    ensures r.Failure? <==> |pending| == 0
    ensures r.Success? ==>
      && Valid(r.value)
      && r.value.matchIdCache == None
      && r.value.id == c.id && r.value.members == c.members && r.value.builder == c.builder
      && |r.value.matches| == (if |pending| < Capacity then |pending| else Capacity)
      && multiset(r.value.matches) <= multiset(pending)
      && forall x, y :: x in multiset(pending) - multiset(r.value.matches) && y in r.value.matches ==>
           x.similarity <= y.similarity
  {
    TopOfSortIsHighest(pending);
    var kept := KeepHighest(StableSort(pending));
    if |kept| == 0 then Failure(EmptyMatchList)
    else Success(c.(matches := kept, lowest := kept[0].similarity, matchIdCache := None))
  }

  /** Saving into a sorted list with room: `m` is added and nothing is dropped. */
  lemma SaveIntoRoom(s: seq<ComparisonMatch>, m: ComparisonMatch)
    requires Sorted(s) && |s| < Capacity
    ensures var r := KeepHighest(StableSort(s + [m]));
      m in r && multiset(r) == multiset(s) + multiset{m}
  {
    SortAppended(s, m);
    InsertKeepsSorted(s, m);
    var r := KeepHighest(StableSort(s + [m]));
    assert r == Insert(s, m);
    assert m in multiset(r);
  }

  /** Saving into a full sorted list whose lowest entry does not score above `m`:
      `m` is added and only the old lowest entry is dropped. */
  lemma SaveIntoFull(s: seq<ComparisonMatch>, m: ComparisonMatch)
    requires Sorted(s) && |s| == Capacity
    requires s[0].similarity <= m.similarity
    ensures var r := KeepHighest(StableSort(s + [m]));
      m in r && multiset(r) == multiset(s[1..]) + multiset{m}
  {
    SortAppended(s, m);
    var k := InsertPosition(s, m);
    InsertSplices(s, m);
    InsertPositionSeparates(s, m);
    assert 1 <= k;
    SpliceDropFirst(s, m, k);
  }

  /** Saving into a list that is not full, or whose lowest entry does not score
      above `m`: `m` is kept, and at most the old lowest entry is dropped. */
  lemma SaveKeepsNewMatch(s: seq<ComparisonMatch>, m: ComparisonMatch)
    requires Sorted(s) && |s| <= Capacity
    requires |s| == Capacity ==> s[0].similarity <= m.similarity
    ensures var r := KeepHighest(StableSort(s + [m]));
      && m in r
      && multiset(r) == if |s| < Capacity then multiset(s) + multiset{m} else multiset(s[1..]) + multiset{m}
  {
    if |s| < Capacity {
      SaveIntoRoom(s, m);
    } else {
      SaveIntoFull(s, m);
    }
  }

  /** `saveComparisonResult`. A full list ignores a score below its lowest;
      otherwise the match is added, only the lowest entry is dropped when the
      list overflows, and the cached id set is discarded. */
  function SaveComparisonResult(c: Cluster, id: string, similarity: real): (r: Cluster)
    requires Valid(c)
    ensures Valid(r)
    ensures r.id == c.id && r.members == c.members && r.builder == c.builder
    ensures |c.matches| >= Capacity && similarity < c.lowest ==> r == c
    ensures !(|c.matches| >= Capacity && similarity < c.lowest) ==>
      && ComparisonMatch(id, similarity) in r.matches
      && r.matchIdCache == None
      && multiset(r.matches) == if |c.matches| < Capacity
           then multiset(c.matches) + multiset{ComparisonMatch(id, similarity)}
           else multiset(c.matches[1..]) + multiset{ComparisonMatch(id, similarity)}
  {
    if |c.matches| >= Capacity && similarity < c.lowest then c
    else
      var m := ComparisonMatch(id, similarity);
      SaveKeepsNewMatch(c.matches, m);
      var r := UpdateComparisonMatches(c, c.matches + [m]);
      r.value
  }

  /** Whether skipped or not, a save leaves exactly the `Capacity` highest entries
      of the list with the new match stably inserted. */
  lemma SaveIsInsertThenTruncate(c: Cluster, id: string, similarity: real)
    requires Valid(c)
    ensures SaveComparisonResult(c, id, similarity).matches
         == KeepHighest(Insert(c.matches, ComparisonMatch(id, similarity)))
  {
    var m := ComparisonMatch(id, similarity);
    if |c.matches| >= Capacity && similarity < c.lowest {
      InsertBelowFullIsDropped(c.matches, m);
    } else {
      SortAppended(c.matches, m);
    }
  }

  /** A match scoring below the lowest entry of a full list goes first and is
      truncated away again. */
  lemma InsertBelowFullIsDropped(s: seq<ComparisonMatch>, m: ComparisonMatch)
    requires Sorted(s) && |s| == Capacity && m.similarity < s[0].similarity
    ensures KeepHighest(Insert(s, m)) == s
  {
    PositionUnique(s, m, 0);
    InsertSplices(s, m);
    assert Insert(s, m) == [m] + s;
    assert ([m] + s)[1..] == s;
  }

  /** A sequence of saves, in order. */
  function SaveAll(c: Cluster, history: seq<ComparisonMatch>): (r: Cluster)
    requires Valid(c)
    ensures Valid(r)
    ensures r.id == c.id && r.members == c.members && r.builder == c.builder
  {
    if |history| == 0 then c
    else
      var last := history[|history| - 1];
      SaveComparisonResult(SaveAll(c, history[..|history| - 1]), last.spectrumId, last.similarity)
  }

  /** The inductive step of `SaveAllRetainsHighestSeen`: one more save. */
  lemma SaveAllStep(c: Cluster, p: seq<ComparisonMatch>, m: ComparisonMatch)
    requires Valid(c)
    requires SaveAll(c, p).matches == KeepHighest(StableSort(c.matches + p))
    ensures SaveAll(c, p + [m]).matches == KeepHighest(StableSort((c.matches + p) + [m]))
  {
    var history := p + [m];
    assert history[..|history| - 1] == p;
    var before := SaveAll(c, p);
    var offered := c.matches + p;
    calc {
      SaveAll(c, history).matches;
      SaveComparisonResult(before, m.spectrumId, m.similarity).matches;
      { SaveIsInsertThenTruncate(before, m.spectrumId, m.similarity); }
      KeepHighest(Insert(before.matches, m));
      KeepHighest(Insert(KeepHighest(StableSort(offered)), m));
      { KeepInsertCommutes(StableSort(offered), m); }
      KeepHighest(Insert(StableSort(offered), m));
      { assert (offered + [m])[..|offered|] == offered; }
      KeepHighest(StableSort(offered + [m]));
    }
  }

  /** After any sequence of saves the list holds exactly the `Capacity` highest
      entries seen so far, ties broken by insertion order: it is the top of the
      stable sort of everything ever offered. */
  lemma {:induction false} SaveAllRetainsHighestSeen(c: Cluster, history: seq<ComparisonMatch>)
    requires Valid(c)
    ensures SaveAll(c, history).matches == KeepHighest(StableSort(c.matches + history))
  {
    if |history| == 0 {
      assert c.matches + history == c.matches;
      SortingSortedIsIdentity(c.matches);
    } else {
      var p := history[..|history| - 1];
      var m := history[|history| - 1];
      assert history == p + [m];
      assert c.matches + history == (c.matches + p) + [m];
      SaveAllRetainsHighestSeen(c, p);
      SaveAllStep(c, p, m);
    }
  }

  // --------------------------------------------------------------- mergeCluster

  /** The matches that do not refer to `id`, in order. */
  function WithoutSelfReferences(s: seq<ComparisonMatch>, id: string): (r: seq<ComparisonMatch>)
    ensures forall x :: x in r <==> x in s && x.spectrumId != id
    ensures forall x :: multiset(r)[x] == if x.spectrumId == id then 0 else multiset(s)[x]
    ensures multiset(r) <= multiset(s)
    ensures |r| == 0 <==> forall i :: 0 <= i < |s| ==> s[i].spectrumId == id
  {
    if |s| == 0 then []
    else
      var last := s[|s| - 1];
      assert s == s[..|s| - 1] + [last];
      WithoutSelfReferences(s[..|s| - 1], id) + (if last.spectrumId == id then [] else [last])
  }

  /** Entries kept out of this list plus the imported non-self references come
      from this list or are imported entries that do not refer to `id`. */
  lemma RetainedComeFromOffered(kept: seq<ComparisonMatch>, own: seq<ComparisonMatch>,
                                imported: seq<ComparisonMatch>, id: string)
    requires multiset(kept) <= multiset(own + WithoutSelfReferences(imported, id))
    ensures forall x :: x in kept ==> x in own || (x in imported && x.spectrumId != id)
  {
    forall x | x in kept
      ensures x in own || (x in imported && x.spectrumId != id)
    {
      assert x in multiset(kept);
      assert x in multiset(own + WithoutSelfReferences(imported, id));
      assert x in own + WithoutSelfReferences(imported, id);
    }
  }

  /** The id a merge keeps: the other cluster's when it has strictly more members. */
  function SurvivingId(c: Cluster, other: Cluster): string
  {
    if |other.members| > |c.members| then other.id else c.id
  }

  /** The matches a merge re-sorts: this list, then the other list without the
      entries that refer to the surviving id. */
  function OfferedOnMerge(c: Cluster, other: Cluster): seq<ComparisonMatch>
  {
    c.matches + WithoutSelfReferences(other.matches, SurvivingId(c, other))
  }

  /** `mergeCluster`. The members become the union; the id becomes the other
      cluster's exactly when it had strictly more members; the other builder is
      folded into this one. When the other cluster has matches, those that do
      not refer to the surviving id are added and the list is re-sorted and cut;
      that fails exactly when this list is empty and every imported match refers
      to the surviving id. Without matches on the other side the list, its
      lowest score and its cached id set are untouched. */
  function MergeCluster(c: Cluster, other: Cluster): (r: Result<Cluster, ClusterError>)
    requires Valid(c)
    ensures r.Failure? <==>
      && |other.matches| > 0 && |c.matches| == 0
      && forall i :: 0 <= i < |other.matches| ==> other.matches[i].spectrumId == SurvivingId(c, other)
    ensures r.Success? ==>
      && Valid(r.value)
      && r.value.id == (if |other.members| > |c.members| then other.id else c.id)
      && r.value.members == c.members + other.members
      && r.value.builder == c.builder.AddConsensusSpectrum(other.builder)
    ensures r.Success? && |other.matches| == 0 ==>
      r.value.matches == c.matches && r.value.lowest == c.lowest && r.value.matchIdCache == c.matchIdCache
    ensures r.Success? && |other.matches| > 0 ==> r.value.matchIdCache == None
  {
    var survivingId := SurvivingId(c, other);
    var merged := c.(builder := c.builder.AddConsensusSpectrum(other.builder),
                     id := survivingId,
                     members := c.members + other.members);
    if |other.matches| > 0 then UpdateComparisonMatches(merged, OfferedOnMerge(c, other))
    else Success(merged)
  }

  /** The best-match list after a merge: every retained entry is one of this
      cluster's or an imported entry that does not refer to the surviving id;
      the retained entries are a sub-multiset of everything offered, and of
      that the `Capacity` highest are the ones retained, in the order of a
      stable sort. */
  lemma MergeRetainsHighestOffered(c: Cluster, other: Cluster)
    requires Valid(c)
    requires MergeCluster(c, other).Success? && |other.matches| > 0
    ensures var merged := MergeCluster(c, other).value;
      var offered := OfferedOnMerge(c, other);
      && (forall x :: x in merged.matches ==>
            x in c.matches || (x in other.matches && x.spectrumId != merged.id))
      && |merged.matches| == (if |offered| < Capacity then |offered| else Capacity)
      && multiset(merged.matches) <= multiset(offered)
      && (forall x, y :: x in multiset(offered) - multiset(merged.matches) && y in merged.matches ==>
           x.similarity <= y.similarity)
      && merged.matches == KeepHighest(StableSort(offered))
  {
    var merged := MergeCluster(c, other).value;
    RetainedComeFromOffered(merged.matches, c.matches, other.matches, SurvivingId(c, other));
  }

  /** Merging clusters with disjoint members adds their member counts. */
  lemma MergeDisjointMemberCount(c: Cluster, other: Cluster)
    requires Valid(c)
    requires MergeCluster(c, other).Success? && c.members !! other.members
    ensures |MergeCluster(c, other).value.members| == |c.members| + |other.members|
  {
  }

  // ------------------------------------------------------ isKnownComparisonMatch

  /** `isKnownComparisonMatch`: rebuilds the id set if it was discarded, then
      answers whether some retained match refers to `clusterId`. Because every
      update discards the cached set, the answer is never stale. */
  function IsKnownComparisonMatch(c: Cluster, clusterId: string): (r: (bool, Cluster))
    requires Valid(c)
    ensures r.0 <==> exists i :: 0 <= i < |c.matches| && c.matches[i].spectrumId == clusterId
    ensures Valid(r.1) && r.1.matchIdCache.Some?
    ensures r.1.(matchIdCache := c.matchIdCache) == c
  {
    var ids := if c.matchIdCache.None? then MatchIds(c.matches) else c.matchIdCache.value;
    (clusterId in ids, c.(matchIdCache := Some(ids)))
  }
}

=== FILE: shared_peaks.dfy ===
/** The shared-peak walk of the combined Fisher/intensity score: a two-pointer
    merge over two peak lists sorted by m/z that pairs the intensities of the
    m/z bins occurring in both, and the population range the hypergeometric
    test is taken over. */
module SharedPeaks {
  import opened Wrappers
  import opened Spectra

  /** Peaks in strictly ascending m/z order, the order the walk relies on. */
  predicate StrictlyAscending(p: seq<BinaryPeak>)
  {
    forall i, j :: 0 <= i < j < |p| ==> p[i].mz < p[j].mz
  }

  predicate StrictlyIncreasing(s: seq<int>)
  {
    forall i, j :: 0 <= i < j < |s| ==> s[i] < s[j]
  }

  /** Some peak of `p` lies in bin `mz`. */
  predicate HasMz(p: seq<BinaryPeak>, mz: int)
  {
    exists j :: 0 <= j < |p| && p[j].mz == mz
  }

  lemma HasMzAppend(p: seq<BinaryPeak>, x: BinaryPeak, mz: int)
    ensures HasMz(p + [x], mz) <==> HasMz(p, mz) || x.mz == mz
  {
    var t := p + [x];
    if HasMz(t, mz) && x.mz != mz {
      var j :| 0 <= j < |t| && t[j].mz == mz;
      assert j < |p| && p[j] == t[j];
    }
    if HasMz(p, mz) {
      var j :| 0 <= j < |p| && p[j].mz == mz;
      assert t[j] == p[j];
    }
    assert t[|p|] == x;
  }

  /** The reference for the walk: the m/z bins of `p1` that also occur in `p2`,
      in the order of `p1`. */
  function CommonMz(p1: seq<BinaryPeak>, p2: seq<BinaryPeak>): (r: seq<int>)
    ensures forall mz :: mz in r <==> HasMz(p1, mz) && HasMz(p2, mz)
    ensures |r| <= |p1|
  {
    if |p1| == 0 then []
    else
      var last := p1[|p1| - 1];
      assert p1 == p1[..|p1| - 1] + [last];
      forall mz ensures HasMz(p1, mz) <==> HasMz(p1[..|p1| - 1], mz) || last.mz == mz {
        HasMzAppend(p1[..|p1| - 1], last, mz);
      }
      CommonMz(p1[..|p1| - 1], p2) + (if HasMz(p2, last.mz) then [last.mz] else [])
  }

  lemma CommonMzSnoc(p1: seq<BinaryPeak>, i: nat, p2: seq<BinaryPeak>)
    requires i < |p1|
    ensures CommonMz(p1[..i + 1], p2)
         == CommonMz(p1[..i], p2) + (if HasMz(p2, p1[i].mz) then [p1[i].mz] else [])
  {
    assert p1[..i + 1][..i] == p1[..i];
  }

  /** On a strictly ascending first list the common bins are strictly increasing. */
  lemma {:induction false} CommonMzIncreasing(p1: seq<BinaryPeak>, p2: seq<BinaryPeak>)
    requires StrictlyAscending(p1)
    ensures StrictlyIncreasing(CommonMz(p1, p2))
  {
    if |p1| > 0 {
      var p := p1[..|p1| - 1];
      var last := p1[|p1| - 1];
      CommonMzIncreasing(p, p2);
      var before := CommonMz(p, p2);
      forall k | 0 <= k < |before| ensures before[k] < last.mz {
        assert HasMz(p, before[k]);
        var j :| 0 <= j < |p| && p[j].mz == before[k];
        assert p1[j] == p[j];
      }
    }
  }

  /** Two strictly increasing sequences with the same elements are equal. */
  lemma {:induction false} IncreasingUnique(a: seq<int>, b: seq<int>)
    requires StrictlyIncreasing(a) && StrictlyIncreasing(b)
    requires forall x :: x in a <==> x in b
    ensures a == b
    decreases |a|
  {
    assert |a| > 0 ==> a[0] in a;
    assert |b| > 0 ==> b[0] in b;
    if |a| > 0 && |b| > 0 {
      // the first element of each is the least element of both
      assert forall k :: 0 < k < |a| ==> a[0] < a[k];
      assert forall k :: 0 < k < |b| ==> b[0] < b[k];
      assert a[0] in a && b[0] in b;
      assert a[0] == b[0];
      forall x ensures x in a[1..] <==> x in b[1..] {
        if x in a[1..] {
          var k :| 0 <= k < |a| - 1 && a[1..][k] == x;
          assert a[k + 1] == x && a[0] < x;
          assert x in b;
          var l :| 0 <= l < |b| && b[l] == x;
          assert l != 0;
          assert b[1..][l - 1] == x;
        }
        if x in b[1..] {
          var k :| 0 <= k < |b| - 1 && b[1..][k] == x;
          assert b[k + 1] == x && b[0] < x;
          assert x in a;
          var l :| 0 <= l < |a| && a[l] == x;
          assert l != 0;
          assert a[1..][l - 1] == x;
        }
      }
      IncreasingUnique(a[1..], b[1..]);
      assert a == [a[0]] + a[1..] && b == [b[0]] + b[1..];
    }
  }

  /** Swapping the spectra yields the same shared bins, so the walk returns the
      two intensity lists exchanged; the count of shared bins is therefore
      bounded by both peak counts. */
  lemma CommonMzSymmetric(p1: seq<BinaryPeak>, p2: seq<BinaryPeak>)
    requires StrictlyAscending(p1) && StrictlyAscending(p2)
    ensures CommonMz(p1, p2) == CommonMz(p2, p1)
    ensures |CommonMz(p1, p2)| <= |p1| && |CommonMz(p1, p2)| <= |p2|
  {
    CommonMzIncreasing(p1, p2);
    CommonMzIncreasing(p2, p1);
    IncreasingUnique(CommonMz(p1, p2), CommonMz(p2, p1));
  }

  /** The intensity of the first peak in bin `mz`. */
  function IntensityAt(p: seq<BinaryPeak>, mz: int): int
  {
    if |p| == 0 then 0
    else if p[0].mz == mz then p[0].intensity
    else IntensityAt(p[1..], mz)
  }

  lemma {:induction false} IntensityAtIndex(p: seq<BinaryPeak>, j: nat)
    requires StrictlyAscending(p) && j < |p|
    ensures IntensityAt(p, p[j].mz) == p[j].intensity
  {
    if j > 0 {
      assert p[0].mz < p[j].mz;
      assert p[1..][j - 1] == p[j];
      IntensityAtIndex(p[1..], j - 1);
    }
  }

  /** The intensities of `p` in the given bins, in order. */
  function IntensitiesAt(p: seq<BinaryPeak>, mzs: seq<int>): seq<int>
  {
    seq(|mzs|, k requires 0 <= k < |mzs| => IntensityAt(p, mzs[k]))
  }

  lemma IntensitiesAtSnoc(p: seq<BinaryPeak>, mzs: seq<int>, mz: int)
    ensures IntensitiesAt(p, mzs + [mz]) == IntensitiesAt(p, mzs) + [IntensityAt(p, mz)]
  {
  }

  /** Where the walk over `p2` stops short of `mz`, no peak of `p2` lies in bin `mz`. */
  lemma AbsentBeyondGap(p2: seq<BinaryPeak>, index2: nat, mz: int)
    requires StrictlyAscending(p2) && index2 <= |p2|
    requires forall j :: 0 <= j < index2 ==> p2[j].mz < mz
    requires index2 < |p2| ==> mz < p2[index2].mz
    ensures !HasMz(p2, mz)
  {
    forall j | 0 <= j < |p2| ensures p2[j].mz != mz {
      if index2 < j {
        assert p2[index2].mz < p2[j].mz;
      }
    }
  }

  /** The inner loop of the walk for one peak of the first spectrum, in bin
      `mz`: it skips the peaks of `peaks2` below that bin, stops at the first
      peak above it, and when a peak lies in the bin itself consumes it and
      returns its intensity. */
  method MatchBin(peaks2: seq<BinaryPeak>, start: nat, mz: int)
    returns (index2: nat, intensity: Option<int>)
    requires start <= |peaks2|
    ensures start <= index2 <= |peaks2|
    ensures intensity.None? ==>
      && (forall j :: start <= j < index2 ==> peaks2[j].mz < mz)
      && (index2 < |peaks2| ==> mz < peaks2[index2].mz)
    ensures intensity.Some? ==>
      && start < index2
      && (forall j :: start <= j < index2 - 1 ==> peaks2[j].mz < mz)
      && peaks2[index2 - 1].mz == mz
      && intensity.value == peaks2[index2 - 1].intensity
  {
    index2 := start;
    intensity := None;
    while index2 < |peaks2|
      invariant start <= index2 <= |peaks2|
      invariant forall j :: start <= j < index2 ==> peaks2[j].mz < mz
    {
      var mzSpec2 := peaks2[index2].mz;
      if mz < mzSpec2 {
        break;
      }
      if mzSpec2 < mz {
        index2 := index2 + 1;
      } else {
        intensity := Some(peaks2[index2].intensity);
        index2 := index2 + 1;
        break;
      }
    }
  }

  /** The shared-peak walk of `correlation`. Both intensity lists have one entry
      per shared bin, so neither exceeds either peak count; on strictly
      ascending input they hold, in ascending m/z order, the intensities of
      exactly the bins that occur in both lists. */
  method SharedPeakWalk(peaks1: seq<BinaryPeak>, peaks2: seq<BinaryPeak>)
    returns (shared1: seq<int>, shared2: seq<int>)
    ensures |shared1| == |shared2|
    ensures |shared1| <= |peaks1| && |shared1| <= |peaks2|
    ensures StrictlyAscending(peaks1) && StrictlyAscending(peaks2) ==>
      && shared1 == IntensitiesAt(peaks1, CommonMz(peaks1, peaks2))
      && shared2 == IntensitiesAt(peaks2, CommonMz(peaks1, peaks2))
  {
    ghost var sorted := StrictlyAscending(peaks1) && StrictlyAscending(peaks2);
    ghost var common: seq<int> := [];
    var index1 := 0;
    var index2 := 0;
    shared1 := [];
    shared2 := [];
    while index1 < |peaks1|
      invariant index1 <= |peaks1| && index2 <= |peaks2|
      invariant |shared1| == |shared2| && |shared1| <= index1 && |shared1| <= index2
      invariant sorted ==> common == CommonMz(peaks1[..index1], peaks2)
      invariant sorted ==> shared1 == IntensitiesAt(peaks1, common) && shared2 == IntensitiesAt(peaks2, common)
      invariant sorted ==> forall j :: 0 <= j < index2 ==> 0 < index1 && peaks2[j].mz <= peaks1[index1 - 1].mz
    {
      var mzSpec1 := peaks1[index1].mz;
      var next, intensity2 := MatchBin(peaks2, index2, mzSpec1);
      if sorted {
        CommonMzSnoc(peaks1, index1, peaks2);
        assert forall j :: 0 <= j < index2 ==> peaks2[j].mz < mzSpec1 by {
          assert 0 < index1 ==> peaks1[index1 - 1].mz < mzSpec1;
        }
        if intensity2.None? {
          AbsentBeyondGap(peaks2, next, mzSpec1);
        } else {
          assert HasMz(peaks2, mzSpec1);
          IntensityAtIndex(peaks1, index1);
          IntensityAtIndex(peaks2, next - 1);
          IntensitiesAtSnoc(peaks1, common, mzSpec1);
          IntensitiesAtSnoc(peaks2, common, mzSpec1);
        }
      }
      if intensity2.Some? {
        shared1 := shared1 + [peaks1[index1].intensity];
        shared2 := shared2 + [intensity2.value];
        common := common + [mzSpec1];
      }
      index2 := next;
      index1 := index1 + 1;
    }
    assert peaks1[..index1] == peaks1;
  }


  /** Peaks in non-decreasing m/z order, as a sort by m/z leaves them. */
  predicate Ascending(p: seq<BinaryPeak>)
  {
    forall i, j :: 0 <= i < j < |p| ==> p[i].mz <= p[j].mz
  }

  /** The lowest bin of the two spectra: the smaller of their first peaks. */
  function MinBin(peaks1: seq<BinaryPeak>, peaks2: seq<BinaryPeak>): (b: Int32)
    requires |peaks1| > 0 && |peaks2| > 0
    ensures b == peaks1[0].mz || b == peaks2[0].mz
    ensures b <= peaks1[0].mz && b <= peaks2[0].mz
  {
    if peaks1[0].mz < peaks2[0].mz then peaks1[0].mz else peaks2[0].mz
  }

  /** The highest bin of the two spectra: the larger of their last peaks. */
  function MaxBin(peaks1: seq<BinaryPeak>, peaks2: seq<BinaryPeak>): (b: Int32)
    requires |peaks1| > 0 && |peaks2| > 0
    ensures b == peaks1[|peaks1| - 1].mz || b == peaks2[|peaks2| - 1].mz
    ensures b >= peaks1[|peaks1| - 1].mz && b >= peaks2[|peaks2| - 1].mz
  {
    var last1 := peaks1[|peaks1| - 1].mz;
    var last2 := peaks2[|peaks2| - 1].mz;
    if last1 > last2 then last1 else last2
  }

  /** The hypergeometric population, `maxBin - minBin` in Java `int`
      arithmetic: the exact difference when it fits in an `int`, and congruent
      to it modulo 2^32 always. */
  function PopulationSize(peaks1: seq<BinaryPeak>, peaks2: seq<BinaryPeak>): (n: Int32)
    requires |peaks1| > 0 && |peaks2| > 0
    ensures (n - (MaxBin(peaks1, peaks2) - MinBin(peaks1, peaks2))) % Int32Modulus == 0
    ensures Int32Min <= MaxBin(peaks1, peaks2) - MinBin(peaks1, peaks2) < 0x8000_0000 ==>
      n == MaxBin(peaks1, peaks2) - MinBin(peaks1, peaks2)
  {
    WrapInt32(MaxBin(peaks1, peaks2) - MinBin(peaks1, peaks2))
  }

  /** On sorted input the two end bins bound every peak of both spectra, and
      when no bin is negative the population is their exact, non-negative
      difference. */
  lemma PopulationSpansAllPeaks(peaks1: seq<BinaryPeak>, peaks2: seq<BinaryPeak>)
    requires |peaks1| > 0 && |peaks2| > 0
    requires Ascending(peaks1) && Ascending(peaks2)
    ensures forall i :: 0 <= i < |peaks1| ==>
      MinBin(peaks1, peaks2) <= peaks1[i].mz <= MaxBin(peaks1, peaks2)
    ensures forall i :: 0 <= i < |peaks2| ==>
      MinBin(peaks1, peaks2) <= peaks2[i].mz <= MaxBin(peaks1, peaks2)
    ensures MinBin(peaks1, peaks2) >= 0 ==>
      PopulationSize(peaks1, peaks2) == MaxBin(peaks1, peaks2) - MinBin(peaks1, peaks2) >= 0
  {
    forall i | 0 <= i < |peaks1|
      ensures MinBin(peaks1, peaks2) <= peaks1[i].mz <= MaxBin(peaks1, peaks2)
    {
      assert i == 0 || peaks1[0].mz <= peaks1[i].mz;
      assert i == |peaks1| - 1 || peaks1[i].mz <= peaks1[|peaks1| - 1].mz;
    }
    forall i | 0 <= i < |peaks2|
      ensures MinBin(peaks1, peaks2) <= peaks2[i].mz <= MaxBin(peaks1, peaks2)
    {
      assert i == 0 || peaks2[0].mz <= peaks2[i].mz;
      assert i == |peaks2| - 1 || peaks2[i].mz <= peaks2[|peaks2| - 1].mz;
    }
  }
}

=== FILE: spectra.dfy ===
/** Quantized spectra as the clustering engine receives them: integer m/z bins,
    integer intensities and Java's 32-bit `int` arithmetic. */
module Spectra {

  const Int32Min: int := -0x8000_0000
  const Int32Modulus: int := 0x1_0000_0000

  /** Values of Java's `int`. */
  type Int32 = x: int | -0x8000_0000 <= x < 0x8000_0000

  /** Two's-complement wrap-around of a Java `int` operation whose exact result is `x`. */
  function WrapInt32(x: int): (r: Int32)
    ensures (r - x) % Int32Modulus == 0
    ensures Int32Min <= x < Int32Min + Int32Modulus ==> r == x
  {
    (x - Int32Min) % Int32Modulus + Int32Min
  }

  /** One peak: an m/z bin and an intensity, both already quantized to integers. */
  datatype BinaryPeak = BinaryPeak(mz: Int32, intensity: Int32)

  /** A spectrum identified by its id; its peaks are expected in ascending m/z order. */
  datatype BinarySpectrum = BinarySpectrum(uui: string, precursorMz: Int32, charge: Int32, peaks: seq<BinaryPeak>)

  /** The ids of a sequence of spectra. */
  function Ids(s: seq<BinarySpectrum>): set<string>
  {
    set i | 0 <= i < |s| :: s[i].uui
  }
}

=== FILE: wrappers.dfy ===
/** Option and Result values standing in for Java's null and thrown exceptions. */
module Wrappers {

  /** A value that may be absent (a Java reference that may be null). */
  datatype Option<+T> = None | Some(value: T)

  /** The outcome of an operation that either completes or throws. */
  datatype Result<+T, +E> = Success(value: T) | Failure(error: E)
}
